=== FILE: README.md ===
# IPIP.net `.datx` IPv4 lookup, modelled in Dafny

This project models the lookup engine of `IPIPX::IPv4DatabaseX`. The engine resolves an
IPv4 address to a payload string, usually location text, read from an IPIP.net `.datx` file.
The file is an immutable byte sequence with this layout:

- a 4-byte big-endian header `offset`;
- a first-level index of 65,536 little-endian 32-bit slots, one per pair of first two octets;
- a run of 9-byte records: a 4-byte key in network order, a 24-bit little-endian payload
  position in bytes 4-6, an unread byte 7, and a length byte 8;
- the payload bytes.

Modules, one per layer of the lookup:

- `Unpack` (unpack.dfy) holds the three decoders behind `unpack_C`, `unpack_N` and `unpack_V`.
  It also holds the encoders they invert, and Ruby's byte-wise `String#<` as `LexLess`.
- `Layout` (layout.dfy) holds the constants and the address datatype `Addr = V4(..) | NotV4`.
  It defines the header `offset` and the `buffer` as pure functions of the file bytes.
  It also decodes the first-level slot and the 9-byte record.
- `Search` (search.dfy) holds the lower-bound binary search as a `while` loop (`LowerBound`).
  It is checked against a linear-scan definition of the lower bound (`FirstAtLeast`).
- `Database` (database.dfy) holds `Find`, which follows `lookup_ipv4` step by step.
  It also holds `Lookup`, the same lookup on sorted windows as a pure function (the search written
  as a linear scan), and lemmas about ranges,
  exact keys and the not-found sentinel.
- `Options` (options.dfy) holds the `Option` result, which stands for Ruby's `nil` or a value.
- `Fixture` (fixture.dfy) builds a minimal database by hand: a first-level index of zeros,
  one record and one payload. It proves what the lookup returns on that file.

Positions after the header are positions in the buffer, as in the source. A buffer position
is a file position minus 4.

Where the layout comment and the arithmetic disagree, the model follows the arithmetic.
The comment at lib/ipip/ipv4_database_x.rb:8-24 says the record index is `offset - 256*1024 - 4`
bytes long, which would make the index end at file position `offset`. The code at lines 59-61
and 81 reads it differently. It treats `end_offset = offset - 262148` as the buffer position
where the record run ends, and it treats the same position as the start of the payload region.
`Database.LayoutConsistent` states that reading of the file.

The record length is the single byte 8, exactly as line 79 reads it. Byte 7 is never read.

## Model

| member | source | states |
|---|---|---|
| Unpack.DecodeU8 | lib/ipip/ipv4_database_x.rb:85-89 | `unpack_C` gives the first byte, a value in [0, 255] |
| Unpack.DecodeU32BE | lib/ipip/ipv4_database_x.rb:38 | `unpack_N` gives an unsigned value below 2^32 (its byte order is fixed by the round-trip lemmas below) |
| Unpack.DecodeU32LE | lib/ipip/ipv4_database_x.rb:58 | `unpack_V` gives an unsigned value below 2^32 |
| Unpack.DecodeEncodeU32BE | lib/ipip/ipv4_database_x.rb:85-89 | decoding the big-endian encoding of any 32-bit value gives that value back |
| Unpack.EncodeDecodeU32BE | lib/ipip/ipv4_database_x.rb:85-89 | encoding the decoded value gives back the four bytes read, so `N` loses no information |
| Unpack.DecodeEncodeU32LE | lib/ipip/ipv4_database_x.rb:85-89 | the little-endian round trip from value to bytes to value |
| Unpack.EncodeDecodeU32LE | lib/ipip/ipv4_database_x.rb:85-89 | the little-endian round trip from bytes to value to bytes |
| Unpack.LittleEndianIsReversedBigEndian | lib/ipip/ipv4_database_x.rb:85-89 | `V` reads the same bytes as `N` in reverse order |
| Unpack.LexLess | lib/ipip/ipv4_database_x.rb:68 | Ruby's byte-wise `String#<`: no string is less than itself, and a proper prefix is less than the longer string |
| Unpack.LexLessIsNumericLess | lib/ipip/ipv4_database_x.rb:66-68 | on 4-byte strings, Ruby's byte-wise `<` holds exactly when the big-endian values compare `<`, so an equal key is not "less" |
| Layout.Nip | lib/ipip/ipv4_database_x.rb:53-56 | `hton` puts the octets in network order: read big-endian, the upper 16 bits are the first-level slot number (octets 0 and 1) and the lower 16 bits are octets 2 and 3 |
| Layout.Offset | lib/ipip/ipv4_database_x.rb:37-39 | the header value is an unsigned 32-bit number |
| Layout.OffsetIsHeaderBigEndian | lib/ipip/ipv4_database_x.rb:38 | the big-endian encoding of the header value is exactly the file's first four bytes |
| Layout.Buffer | lib/ipip/ipv4_database_x.rb:41-43 | the buffer is 4 bytes shorter than the file |
| Layout.FileIsHeaderThenBuffer | lib/ipip/ipv4_database_x.rb:37-43 | the 4 header bytes followed by the buffer make up the whole file |
| Layout.SlotOffset | lib/ipip/ipv4_database_x.rb:53-56 | the slot position is a multiple of 4, its 4 bytes lie inside the 262,144-byte first-level index, and it recovers octets 0 and 1 |
| Layout.SlotOffsetIdentifiesBucket | lib/ipip/ipv4_database_x.rb:53-56 | two addresses share a slot if and only if their first two octets agree |
| Layout.SlotStart | lib/ipip/ipv4_database_x.rb:58 | the slot value is an unsigned 32-bit number |
| Layout.SlotStartIsSlotLittleEndian | lib/ipip/ipv4_database_x.rb:58 | the little-endian encoding of the slot value is exactly the four bytes at the slot position |
| Layout.StartOffset | lib/ipip/ipv4_database_x.rb:59 | the bucket's first record lies past the 262,144-byte first-level index, on a 9-byte record boundary counted from the index's end |
| Layout.EndOffset | lib/ipip/ipv4_database_x.rb:60 | `end_offset` is the 32-bit header less 262,148, so it lies in [-262,148, 2^32 - 262,148) and may be negative |
| Layout.InitialHi | lib/ipip/ipv4_database_x.rb:61 | the initial `hi` is the number of whole 9-byte records between `start_offset` and `end_offset`, rounded down (Ruby's floor division), so negative when the bucket starts past `end_offset` |
| Layout.RecordDataPos | lib/ipip/ipv4_database_x.rb:78 | the payload position is below 2^24 |
| Layout.RecordDataPosIsBytes4To6 | lib/ipip/ipv4_database_x.rb:78 | the payload position encodes to record bytes 4-6 followed by a zero high byte |
| Layout.RecordDataLength | lib/ipip/ipv4_database_x.rb:79 | the payload length is below 256 and is record byte 8 |
| Layout.RecordIgnoresByte7 | lib/ipip/ipv4_database_x.rb:78-79 | overwriting record byte 7 changes neither the decoded position nor the decoded length |
| Layout.DataOffset | lib/ipip/ipv4_database_x.rb:81 | `data_offset` is `end_offset + data_pos`: payload positions count from the buffer position where the record run ends |
| Search.FirstAtLeast | lib/ipip/ipv4_database_x.rb:61-73 | the lower bound lies in the window; every earlier key is below the address; the key at the lower bound, if any, is at least the address |
| Search.FirstAtLeastSplitsSortedRun | lib/ipip/ipv4_database_x.rb:63-73 | in a sorted run, keys before the lower bound are below the address and keys from it onwards are at or above it |
| Search.FirstAtLeastIsUnique | lib/ipip/ipv4_database_x.rb:63-73 | any index that splits the run that way is the lower bound |
| Search.FirstAtLeastAtRangeEnd | lib/ipip/ipv4_database_x.rb:63-73 | in a sorted run, if key j is at least the address and the key before it (if any) is below it, the lower bound is j |
| Search.FirstAtLeastFindsEqualKey | lib/ipip/ipv4_database_x.rb:66-72 | in a sorted run, if key j equals the address, the lower bound is no later than j and has the same key |
| Search.LowerBound | lib/ipip/ipv4_database_x.rb:61-73 | the loop stops with `lo = 0` when `hi <= 0` and with `lo` in [0, hi] otherwise; on a sorted window `lo` is the first record whose key is at least the address |
| Database.Payload | lib/ipip/ipv4_database_x.rb:81-82 | the payload has the record's length byte as its length, and its byte k is file byte `offset - 262,144 + data_pos + k` |
| Database.Lookup | lib/ipip/ipv4_database_x.rb:49-83 | an IPv4 lookup is absent only when the bucket starts past `end_offset` (initial `hi < 0`), never because of the search; a payload is shorter than 256 bytes |
| Database.Find | lib/ipip/ipv4_database_x.rb:49-83 | the result equals the pure lookup, so repeated calls agree; it is absent exactly for non-IPv4 input or when the settled position equals `offset`; otherwise it has the record's length byte as its length |
| Database.LookupRightInclusive | lib/ipip/ipv4_database_x.rb:63-82 | an address above key j-1 and at most key j settles on record j, the sentinel does not fire, and the lookup returns j's payload, so ranges include their upper key |
| Database.LookupFindsExactKey | lib/ipip/ipv4_database_x.rb:66-72 | when a record's key equals the address, the search settles no later than that record, on a record with that key, the sentinel does not fire, and the lookup returns the settled record's payload |
| Database.SentinelOnlyBeforeWindow | lib/ipip/ipv4_database_x.rb:75-76 | the not-found test `start_offset == offset` can be true only when the initial `hi` is negative |
| Database.LookupPastLastKeyIsNotAbsent | lib/ipip/ipv4_database_x.rb:59-82 | an address above every key of a window with `hi >= 0` gets the payload of the bytes just past the window, not nil |
| Database.ConsistentFileNeverAbsent | lib/ipip/ipv4_database_x.rb:59-81 | on a file laid out as the arithmetic reads it, every window is whole records ending at `end_offset`, and no IPv4 lookup is ever absent |
| Database.LookupCorrected | lib/ipip/ipv4_database_x.rb:75-82 | the lookup with the not-found test "`lo` reaches the initial `hi`" (`lo >= (end_offset - start_offset) / 9`): a payload it returns belongs to a record in the window whose key is at least the address, and is shorter than 256 bytes |
| Database.LookupCorrectedAbsentIffPastLastKey | lib/ipip/ipv4_database_x.rb:75-76 | with the not-found test "`lo` reaches the initial `hi`" (`lo >= (end_offset - start_offset) / 9`), a lookup is absent exactly when every key in the window is below the address; otherwise it agrees with the lookup as written |
| Fixture.FixtureParts | lib/ipip/ipv4_database_x.rb:37-43 | on the fixture, the header decodes to 524,301 and the buffer is the zero index, the record and the payload |
| Fixture.FixtureRoundTrip | lib/ipip/ipv4_database_x.rb:49-83 | on the fixture, every IPv4 address at or below the record's key reads only inside the file and gets back exactly the payload bytes |
| Fixture.FixtureIsConsistent | lib/ipip/ipv4_database_x.rb:59-61 | the fixture, with any payload, is laid out as the lookup arithmetic reads a file: a whole run of records from the end of the first-level index to `end_offset`, with every slot pointing into it |
| Fixture.FixtureShortPayloadAboveKeyIsUnreadable | lib/ipip/ipv4_database_x.rb:75-79 | on the consistently laid-out fixture with fewer than 9 payload bytes, an address above the key settles just past the record run, the sentinel does not fire, and the record read at lines 78-79 runs past the end of the buffer, so the lookup is not `Readable` |
| Fixture.FixtureFarPayloadAboveKeyIsUnreadable | lib/ipip/ipv4_database_x.rb:75-82 | on the consistently laid-out fixture whose 9 bytes after the run are a record with payload position 255 and length 5, an address above the key settles on that record, the sentinel does not fire, and the record is read in bounds, but its payload lies past the end of the buffer, so the lookup is not `Readable` |
| Fixture.FixtureAboveKeyIsNotAbsent | lib/ipip/ipv4_database_x.rb:75-82 | on the fixture with nine zero payload bytes, an address above the key gets the empty string as written, while the corrected lookup gives absent |

## Left out

- Hostname resolution through `IPSocket::getaddress` (line 31) is a network call. The model takes an address that is already resolved.
- Text parsing by `IPAddr.new`, `hton` and `to_s.split('.')` (lines 50-55) is replaced by the tagged address `Addr`. `ipdot[1]` is octet 1, and any non-IPv4 address is `NotV4`.
- File reading through `IO.binread` (lines 45-47) and the `||=` caching (lines 37-43) are left out. The file is a given immutable byte sequence, and `offset` and `buffer` are pure functions of it.
- The `.encode('UTF-8', 'UTF-8')` step (line 82) is treated as the identity on the payload bytes.
- The `define_method` loop (lines 85-89) is written as three plain decoders.
- Out-of-range reads are not modelled: the model requires every read to be in bounds (`Database.Readable`). In Ruby an out-of-range slice gives `nil`, and a slice that runs past the end gives a shorter string. What follows depends on the read:
  - the first-level slot (line 58): `nil` raises `NoMethodError` inside `unpack` (line 87); a slot of 1-3 bytes decodes to `nil`, and `nil * 9` raises `NoMethodError` at line 59;
  - a key (line 66): `nil` raises `NoMethodError` at `nil < nip` (line 68); a key of 1-3 bytes is compared as it is, without error;
  - the record's bytes 4-6 (line 78): `nil` raises `NoMethodError` at `nil + 0.chr`;
  - the record's byte 8 (line 79): `nil` raises `NoMethodError` inside `unpack_C` (line 87);
  - the payload (line 82): `nil.to_s` is `""`, so the lookup returns `""` or a shorter string, without error.
- Database.Readable: excludes malformed files, and also two kinds of well-formed file queried above the last key of a window:
  - when fewer than 9 bytes follow the record run, Ruby raises `NoMethodError` at line 78 or 79 (`Fixture.FixtureShortPayloadAboveKeyIsUnreadable`);
  - when the 9 bytes after the run decode as a record whose payload lies past the end of the buffer, Ruby returns `""` or a shorter string (`Fixture.FixtureFarPayloadAboveKeyIsUnreadable`).
- Database.PayloadReadable: requires `data_offset >= 0`. Ruby would count a negative `data_offset` from the end of the buffer (line 82); that case is excluded, not modelled.
- Database.WindowReadable: requires the key of every record in the window to be readable. The binary search reads only about log2(hi) of them, so a file whose unread keys run past the end is excluded although Ruby would answer for it.
- Database.Find: requires the search window to be sorted, which the source does not check. On an unsorted window only `Search.LowerBound`'s bound on `lo` is stated.
- Database.Find: covers only in-bounds reads (`Database.Readable`). Where Ruby raises `NoMethodError` or returns a cut-short payload instead (see the two lines above), nothing is stated.
- Database.Lookup: settles on the linear-scan lower bound (`Search.FirstAtLeast`). On an unsorted window the binary search of lines 63-73 can settle elsewhere (keys 5, 1, 9 and address 3: the scan gives record 0, the loop gives record 2), so `Lookup` is the source's result only on sorted windows, which `Database.Find` requires. `Database.ConsistentFileNeverAbsent` and `Database.LookupPastLastKeyIsNotAbsent` are stated over `Lookup`.

## Findings

| source | as written | input that shows it | evidently intended | confidence | as-written member | corrected member |
|---|---|---|---|---|---|---|
| lib/ipip/ipv4_database_x.rb:75-76 | the not-found test compares the settled buffer position with the header `offset`. The settled position is at most `end_offset = offset - 262148`, so the test can fire only when `hi < 0`. | the one-record fixture with nine zero payload bytes, queried with any address above its key. The search settles on `lo = hi = 1`. The lookup then decodes the nine payload bytes as a record of length 0 and returns the empty string (`Fixture.FixtureAboveKeyIsNotAbsent`). A second consequence: when fewer than 9 bytes follow the record run, the same query reads a record past the end of the buffer and Ruby raises `NoMethodError` at line 78 or 79 (`Fixture.FixtureShortPayloadAboveKeyIsUnreadable`). A third consequence: when those 9 bytes point to a payload past the end of the buffer, the slice at line 82 gives `nil` and Ruby returns `""` (`Fixture.FixtureFarPayloadAboveKeyIsUnreadable`). | return nil when the search runs off the end of its window (`lo` reaches the initial `hi`), so an address above every key is reported absent | medium, not executed | Database.LookupPastLastKeyIsNotAbsent | Database.LookupCorrectedAbsentIffPastLastKey |

`Database.Find` and `Database.Lookup` keep the test exactly as the source writes it.
`Database.LookupCorrected` is the corrected lookup. `Database.LookupCorrectedAbsentIffPastLastKey`
proves it absent exactly above the last key of the window, and equal to the lookup as written
everywhere else.

=== FILE: database.dfy ===
/**
  The IPv4 lookup of `IPv4DatabaseX`: the address's first-level slot gives
  the bucket's first record, a lower-bound search over the records from there
  to `end_offset` picks one record, and that record's payload is returned.

  `Lookup` is the reference meaning, with the search written as a linear scan;
  `Find` follows the source step by step, with the binary search.
 */
module Database {
  import opened Options
  import opened Unpack
  import opened Layout
  import opened Search

  /** The address is IPv4, the first-level index is present and the search window's keys can be read. */
  predicate WindowReadable(file: seq<byte>, a: Addr)
  {
    && a.V4?
    && HasFirstLevelIndex(file)
    && KeysReadable(Buffer(file), StartOffset(file, a), InitialHi(file, a))
  }

  /** The records of the address's search window ascend by key. */
  predicate WindowSorted(file: seq<byte>, a: Addr)
  {
    && a.V4?
    && HasFirstLevelIndex(file)
    && Sorted(Buffer(file), StartOffset(file, a), InitialHi(file, a))
  }

  /** The record the search settles on: the first in the window whose key is at least the address. */
  function Settled(file: seq<byte>, a: Addr): nat
    requires WindowReadable(file, a)
  {
    FirstAtLeast(Buffer(file), StartOffset(file, a), InitialHi(file, a), AddrValue(a), 0)
  }

  /** `start_offset` after the search: the buffer position of the settled record. */
  function FinalPos(file: seq<byte>, a: Addr): nat
    requires WindowReadable(file, a)
  {
    StartOffset(file, a) + IpBlockSize * Settled(file, a)
  }

  /** The record at `pos` and the payload it points to lie inside the buffer. */
  predicate PayloadReadable(file: seq<byte>, pos: int)
  {
    && |file| >= OffsetNumberSize
    && RecordReadable(Buffer(file), pos)
    && var start := DataOffset(file, RecordDataPos(Buffer(file), pos));
       0 <= start && start + RecordDataLength(Buffer(file), pos) <= |Buffer(file)|
  }

  /**
    The payload of the record at `pos`: `data_length` bytes of the file,
    starting `data_pos` bytes past file position `offset - 262,144`.
   */
  function Payload(file: seq<byte>, pos: int): (p: seq<byte>)
    requires PayloadReadable(file, pos)
    ensures |p| == RecordDataLength(Buffer(file), pos)
    ensures forall k :: 0 <= k < |p| ==>
              p[k] == file[Offset(file) - FirstIpNumberIndexSize + RecordDataPos(Buffer(file), pos) + k]
  {
    var start := DataOffset(file, RecordDataPos(Buffer(file), pos));
    Buffer(file)[start..start + RecordDataLength(Buffer(file), pos)]
  }

  /**
    Every read the lookup makes stays inside the file. A non-IPv4 address
    reads nothing.
   */
  predicate Readable(file: seq<byte>, a: Addr)
  {
    || a.NotV4?
    || (&& WindowReadable(file, a)
        && (FinalPos(file, a) != Offset(file) ==> PayloadReadable(file, FinalPos(file, a))))
  }

  /**
    The result of the lookup, as a pure function of the file bytes and the
    address. Because the settled position never reaches `offset` once the
    initial `hi` is at least 0, an IPv4 lookup is absent only when the bucket
    starts past `end_offset`.
   */
  function Lookup(file: seq<byte>, a: Addr): (r: Option<seq<byte>>)
    requires Readable(file, a)
    ensures r.None? ==> a.NotV4? || InitialHi(file, a) < 0
    ensures r.Some? ==> |r.value| < 256
  {
    if a.NotV4? then None
    else
      SentinelOnlyBeforeWindow(file, a);
      if FinalPos(file, a) == Offset(file) then None
      else Some(Payload(file, FinalPos(file, a)))
  }

  /**
    `lookup_ipv4`, step by step. On a sorted window the binary search lands
    where the linear scan does, so the result is `Lookup`'s and two calls
    with the same file and address agree. The result is absent exactly for a
    non-IPv4 address or when the settled position equals the header offset;
    otherwise it has the record's length.
   */
  method Find(file: seq<byte>, a: Addr) returns (r: Option<seq<byte>>)
    requires Readable(file, a)
    requires a.NotV4? || WindowSorted(file, a)
    ensures r == Lookup(file, a)
    ensures a.NotV4? ==> r == None
    ensures a.V4? ==> (r == None <==> FinalPos(file, a) == Offset(file))
    ensures r.Some? ==> |r.value| == RecordDataLength(Buffer(file), FinalPos(file, a))
  {
    if a.NotV4? {
      return None;
    }
    var offset := Offset(file);
    var buffer := Buffer(file);
    var nip := Nip(a);
    var firstIpOffset := SlotOffset(a);
    var start := DecodeU32LE(buffer[firstIpOffset..firstIpOffset + 4]);
    var startOffset := start * IpBlockSize + FirstIpNumberIndexSize;
    var endOffset := offset - FirstIpNumberIndexSize - OffsetNumberSize;
    var hi := (endOffset - startOffset) / IpBlockSize;
    assert startOffset == StartOffset(file, a) && hi == InitialHi(file, a);
    var lo := LowerBound(buffer, startOffset, hi, nip);
    assert lo == Settled(file, a);
    startOffset := startOffset + lo * IpBlockSize;
    assert startOffset == FinalPos(file, a);
    if startOffset == offset {
      return None;
    }
    var dataPos := RecordDataPos(buffer, startOffset);
    var dataLength := RecordDataLength(buffer, startOffset);
    var dataOffset := offset + dataPos - FirstIpNumberIndexSize - OffsetNumberSize;
    assert dataOffset == DataOffset(file, dataPos);
    r := Some(buffer[dataOffset..dataOffset + dataLength]);
    assert r.value == Payload(file, startOffset);
  }

  /**
    Right-inclusive ranges: when record `j`'s key is the first in the window
    that is at least the address (the previous key is below it, or `j` is the
    first record), the search settles on `j` and the lookup returns `j`'s
    payload. The sentinel cannot fire, because the window is not empty.
   */
  lemma {:induction false} LookupRightInclusive(file: seq<byte>, a: Addr, j: nat)
    requires Readable(file, a) && WindowSorted(file, a)
    requires j < InitialHi(file, a)
    requires AddrValue(a) <= KeyValue(Buffer(file), StartOffset(file, a), j)
    requires j == 0 || KeyValue(Buffer(file), StartOffset(file, a), j - 1) < AddrValue(a)
    ensures Settled(file, a) == j
    ensures FinalPos(file, a) == StartOffset(file, a) + IpBlockSize * j != Offset(file)
    ensures Lookup(file, a) == Some(Payload(file, FinalPos(file, a)))
  {
    FirstAtLeastAtRangeEnd(Buffer(file), StartOffset(file, a), InitialHi(file, a), AddrValue(a), j);
    SentinelOnlyBeforeWindow(file, a);
  }

  /**
    An exact match is found, not skipped: when some record in the window has
    the address as its key, the settled record is no later and has that key,
    and the lookup returns the settled record's payload.
   */
  lemma {:induction false} LookupFindsExactKey(file: seq<byte>, a: Addr, j: nat)
    requires Readable(file, a) && WindowSorted(file, a)
    requires j < InitialHi(file, a)
    requires KeyValue(Buffer(file), StartOffset(file, a), j) == AddrValue(a)
    ensures Settled(file, a) <= j
    ensures KeyValue(Buffer(file), StartOffset(file, a), Settled(file, a)) == AddrValue(a)
    ensures FinalPos(file, a) != Offset(file)
    ensures Lookup(file, a) == Some(Payload(file, FinalPos(file, a)))
  {
    FirstAtLeastFindsEqualKey(Buffer(file), StartOffset(file, a), InitialHi(file, a), AddrValue(a), j);
    SentinelOnlyBeforeWindow(file, a);
  }

  /**
    The sentinel `start_offset == offset` can only fire when the search
    window is empty from the start (`hi < 0`): otherwise the settled position
    is at most `end_offset`, which is 262,148 below `offset`.
   */
  lemma SentinelOnlyBeforeWindow(file: seq<byte>, a: Addr)
    requires WindowReadable(file, a)
    ensures FinalPos(file, a) == Offset(file) ==> InitialHi(file, a) < 0
  {
    var so, n := StartOffset(file, a), InitialHi(file, a);
    if n >= 0 {
      assert IpBlockSize * n <= EndOffset(file) - so;
      assert FinalPos(file, a) <= so + IpBlockSize * n;
    }
  }

  /**
    As written, an address above every key of a window with `hi >= 0` is
    not reported absent: the lookup decodes the 9 bytes just past the window
    as a record and returns the payload they point to.
   */
  lemma LookupPastLastKeyIsNotAbsent(file: seq<byte>, a: Addr)
    requires WindowReadable(file, a) && InitialHi(file, a) >= 0
    requires forall j :: 0 <= j < InitialHi(file, a) ==>
               KeyValue(Buffer(file), StartOffset(file, a), j) < AddrValue(a)
    requires PayloadReadable(file, StartOffset(file, a) + IpBlockSize * InitialHi(file, a))
    ensures Settled(file, a) == InitialHi(file, a)
    ensures Readable(file, a)
    ensures Lookup(file, a) == Some(Payload(file, StartOffset(file, a) + IpBlockSize * InitialHi(file, a)))
  {
    FirstAtLeastIsUnique(Buffer(file), StartOffset(file, a), InitialHi(file, a), AddrValue(a), InitialHi(file, a));
    SentinelOnlyBeforeWindow(file, a);
  }

  /**
    The file's own layout as the lookup arithmetic reads it: the record run
    starts right after the first-level index and ends at `end_offset`, where
    the payload region begins; it is a whole number of records; and every
    first-level slot points into it (or just past it).
   */
  ghost predicate LayoutConsistent(file: seq<byte>)
  {
    && HasFirstLevelIndex(file)
    && FirstIpNumberIndexSize <= EndOffset(file) <= |Buffer(file)|
    && (EndOffset(file) - FirstIpNumberIndexSize) % IpBlockSize == 0
    && forall a: Addr :: a.V4? ==>
         FirstIpNumberIndexSize + IpBlockSize * SlotStart(file, a) <= EndOffset(file)
  }

  /** A bucket that starts on a record boundary of a whole run of records covers a whole number of records. */
  lemma WholeRecords(e: int, s: nat)
    requires FirstIpNumberIndexSize + IpBlockSize * s <= e
    requires (e - FirstIpNumberIndexSize) % IpBlockSize == 0
    ensures IpBlockSize * ((e - (s * IpBlockSize + FirstIpNumberIndexSize)) / IpBlockSize)
              == e - (s * IpBlockSize + FirstIpNumberIndexSize)
  {
    var k := (e - FirstIpNumberIndexSize) / IpBlockSize;
    assert e - FirstIpNumberIndexSize == IpBlockSize * k;
    assert e - (s * IpBlockSize + FirstIpNumberIndexSize) == IpBlockSize * (k - s);
  }

  /**
    On every consistently laid-out file the window is a whole run of records
    and the sentinel never fires, so no IPv4 address is ever reported absent.
   */
  lemma ConsistentFileNeverAbsent(file: seq<byte>, a: Addr)
    requires LayoutConsistent(file) && a.V4?
    ensures WindowReadable(file, a)
    ensures StartOffset(file, a) + IpBlockSize * InitialHi(file, a) == EndOffset(file)
    ensures FinalPos(file, a) != Offset(file)
    ensures Readable(file, a) ==> Lookup(file, a).Some?
  {
    var e, s := EndOffset(file), SlotStart(file, a);
    assert FirstIpNumberIndexSize + IpBlockSize * s <= e;
    WholeRecords(e, s);
    assert WindowReadable(file, a);
    SentinelOnlyBeforeWindow(file, a);
  }

  /** Reads of the corrected lookup: the payload is read only when the search stays inside the window. */
  predicate ReadableCorrected(file: seq<byte>, a: Addr)
  {
    || a.NotV4?
    || (&& WindowReadable(file, a)
        && (Settled(file, a) < InitialHi(file, a) ==> PayloadReadable(file, FinalPos(file, a))))
  }

  /**
    The lookup with the not-found test the layout calls for: absent when the
    search's `lo` reaches the initial `hi` (`lo >= (end_offset - start_offset) / 9`),
    so it runs off the end of the window, instead of comparing
    the settled position with the header offset. A payload it returns belongs
    to a record whose key is at least the address.
   */
  function LookupCorrected(file: seq<byte>, a: Addr): (r: Option<seq<byte>>)
    requires ReadableCorrected(file, a)
    ensures r.Some? ==> && a.V4? && Settled(file, a) < InitialHi(file, a)
                        && AddrValue(a) <= KeyValue(Buffer(file), StartOffset(file, a), Settled(file, a))
    ensures r.Some? ==> |r.value| < 256
  {
    if a.NotV4? then None
    else if Settled(file, a) >= InitialHi(file, a) then None
    else Some(Payload(file, FinalPos(file, a)))
  }

  /**
    The corrected lookup is absent exactly for non-IPv4 addresses and for
    addresses above every key in their window; otherwise it agrees with the
    lookup as written.
   */
  lemma LookupCorrectedAbsentIffPastLastKey(file: seq<byte>, a: Addr)
    requires ReadableCorrected(file, a) && a.V4?
    ensures LookupCorrected(file, a).None? <==>
              forall j :: 0 <= j < InitialHi(file, a) ==>
                KeyValue(Buffer(file), StartOffset(file, a), j) < AddrValue(a)
    ensures LookupCorrected(file, a).Some? ==> Readable(file, a) && LookupCorrected(file, a) == Lookup(file, a)
  {
    var buf, so, n, v := Buffer(file), StartOffset(file, a), InitialHi(file, a), AddrValue(a);
    var k := Settled(file, a);
    if k < n {
      SentinelOnlyBeforeWindow(file, a);
      assert !(v > KeyValue(buf, so, k));
    }
  }
}

=== FILE: fixture.dfy ===
/**
  A minimal database built by hand: a first-level index of zeros (every slot
  points at record 0), one 9-byte record, and one payload string right after
  it. The header value is the one the lookup arithmetic expects for a single
  record: `end_offset = 262,144 + 9`, so `offset = 262,148 + 262,153`.
 */
module Fixture {
  import opened Options
  import opened Unpack
  import opened Layout
  import opened Search
  import opened Database

  const HeaderValue: nat := 262148 + 262153

  /** The single record: `key`, payload position 0, an unused byte 7, then the length. */
  function Record(key: seq<byte>, payload: seq<byte>): (r: seq<byte>)
    requires |key| == 4 && |payload| < 256
    ensures |r| == IpBlockSize
  {
    key + [0, 0, 0, 0, |payload| as byte]
  }

  /** The buffer of the fixture: zero slots, the record, the payload. */
  function FixtureBuffer(key: seq<byte>, payload: seq<byte>): (buf: seq<byte>)
    requires |key| == 4 && |payload| < 256
    ensures |buf| == FirstIpNumberIndexSize + IpBlockSize + |payload|
  {
    seq(FirstIpNumberIndexSize, _ => 0) + Record(key, payload) + payload
  }

  function FixtureFile(key: seq<byte>, payload: seq<byte>): seq<byte>
    requires |key| == 4 && |payload| < 256
  {
    EncodeU32BE(HeaderValue) + FixtureBuffer(key, payload)
  }

  /** The fixture's header decodes to `HeaderValue` and its buffer is `FixtureBuffer`. */
  lemma FixtureParts(key: seq<byte>, payload: seq<byte>)
    requires |key| == 4 && |payload| < 256
    ensures Offset(FixtureFile(key, payload)) == HeaderValue
    ensures Buffer(FixtureFile(key, payload)) == FixtureBuffer(key, payload)
  {
    var file := FixtureFile(key, payload);
    assert file[..OffsetNumberSize] == EncodeU32BE(HeaderValue);
    DecodeEncodeU32BE(HeaderValue);
  }

  /** Bytes of the fixture buffer: zeros, then the record, then the payload. */
  lemma FixtureBufferBytes(key: seq<byte>, payload: seq<byte>)
    requires |key| == 4 && |payload| < 256
    ensures forall i :: 0 <= i < FirstIpNumberIndexSize ==> FixtureBuffer(key, payload)[i] == 0
    ensures FixtureBuffer(key, payload)[FirstIpNumberIndexSize..FirstIpNumberIndexSize + IpBlockSize]
              == Record(key, payload)
    ensures FixtureBuffer(key, payload)[FirstIpNumberIndexSize + IpBlockSize..] == payload
  {
  }

  /** The record of the fixture decodes to its key, payload position 0 and the payload's length. */
  lemma FixtureRecordFields(key: seq<byte>, payload: seq<byte>)
    requires |key| == 4 && |payload| < 256
    ensures KeyAt(FixtureBuffer(key, payload), FirstIpNumberIndexSize, 0) == key
    ensures RecordDataPos(FixtureBuffer(key, payload), FirstIpNumberIndexSize) == 0
    ensures RecordDataLength(FixtureBuffer(key, payload), FirstIpNumberIndexSize) == |payload|
  {
    var buf, pos := FixtureBuffer(key, payload), FirstIpNumberIndexSize;
    FixtureBufferBytes(key, payload);
    var rec := buf[pos..pos + IpBlockSize];
    assert rec == Record(key, payload);
    assert buf[pos..pos + 4] == rec[..4] == key;
    assert buf[pos + 4..pos + 7] == rec[4..7] == [0, 0, 0];
    assert buf[pos + 8..pos + 9] == rec[8..9] == [|payload| as byte];
  }

  /** Every first-level slot of the fixture holds 0. */
  lemma FixtureSlotsAreZero(key: seq<byte>, payload: seq<byte>, a: Addr)
    requires |key| == 4 && |payload| < 256 && a.V4?
    ensures SlotStart(FixtureFile(key, payload), a) == 0
  {
    FixtureParts(key, payload);
    FixtureBufferBytes(key, payload);
    var buf, s := FixtureBuffer(key, payload), SlotOffset(a);
    assert buf[s..s + 4] == [0, 0, 0, 0];
  }

  /**
    Every IPv4 address at or below the record's key, whatever its bucket, is
    resolved to exactly the payload bytes, and every read stays inside the file.
   */
  lemma {:induction false} FixtureRoundTrip(key: seq<byte>, payload: seq<byte>, a: Addr)
    requires |key| == 4 && |payload| < 256
    requires a.V4? && AddrValue(a) <= DecodeU32BE(key)
    ensures Readable(FixtureFile(key, payload), a)
    ensures Lookup(FixtureFile(key, payload), a) == Some(payload)
  {
    var file := FixtureFile(key, payload);
    var buf := FixtureBuffer(key, payload);
    FixtureParts(key, payload);
    FixtureBufferBytes(key, payload);
    FixtureRecordFields(key, payload);
    FixtureSlotsAreZero(key, payload, a);
    assert StartOffset(file, a) == FirstIpNumberIndexSize;
    assert InitialHi(file, a) == 1;
    assert FirstAtLeast(buf, FirstIpNumberIndexSize, 1, AddrValue(a), 0) == 0;
    var pos := FirstIpNumberIndexSize;
    assert FinalPos(file, a) == pos;
    assert DataOffset(file, 0) == pos + IpBlockSize;
    assert Payload(file, pos) == buf[pos + IpBlockSize..] == payload;
  }

  /**
    With a payload of nine zero bytes, an address above the only key is not
    reported absent as written: the nine payload bytes are decoded as a record
    of length 0, and the lookup returns the empty string. The corrected lookup
    reports it absent.
   */
  lemma {:induction false} FixtureAboveKeyIsNotAbsent(key: seq<byte>, a: Addr)
    requires |key| == 4
    requires a.V4? && AddrValue(a) > DecodeU32BE(key)
    ensures Readable(FixtureFile(key, seq(9, _ => 0)), a)
    ensures Lookup(FixtureFile(key, seq(9, _ => 0)), a) == Some([])
    ensures ReadableCorrected(FixtureFile(key, seq(9, _ => 0)), a)
    ensures LookupCorrected(FixtureFile(key, seq(9, _ => 0)), a) == None
  {
    var payload: seq<byte> := seq(9, _ => 0);
    var file := FixtureFile(key, payload);
    var buf := FixtureBuffer(key, payload);
    FixtureParts(key, payload);
    FixtureBufferBytes(key, payload);
    FixtureRecordFields(key, payload);
    FixtureSlotsAreZero(key, payload, a);
    assert StartOffset(file, a) == FirstIpNumberIndexSize;
    assert InitialHi(file, a) == 1;
    assert FirstAtLeast(buf, FirstIpNumberIndexSize, 1, AddrValue(a), 0) == 1;
    var pos := FirstIpNumberIndexSize + IpBlockSize;
    assert FinalPos(file, a) == pos;
    assert buf[pos..] == payload;
    assert buf[pos + 4..pos + 7] + [0] == payload[4..7] + [0] == [0, 0, 0, 0];
    assert RecordDataPos(buf, pos) == 0;
    assert buf[pos + 8..pos + 9] == payload[8..9] == [0];
    assert RecordDataLength(buf, pos) == 0;
    assert DataOffset(file, 0) == pos;
    assert Payload(file, pos) == [];
  }

  /** The fixture is laid out as the lookup arithmetic reads a file, whatever its payload. */
  lemma FixtureIsConsistent(key: seq<byte>, payload: seq<byte>)
    requires |key| == 4 && |payload| < 256
    ensures LayoutConsistent(FixtureFile(key, payload))
  {
    var file := FixtureFile(key, payload);
    FixtureParts(key, payload);
    assert EndOffset(file) == FirstIpNumberIndexSize + IpBlockSize;
    forall a: Addr | a.V4?
      ensures FirstIpNumberIndexSize + IpBlockSize * SlotStart(file, a) <= EndOffset(file)
    {
      FixtureSlotsAreZero(key, payload, a);
    }
  }

  /**
    A consistently laid-out file whose payload region is shorter than one
    record cannot be read above its last key: the search settles just past
    the record run and the lookup would decode a record from fewer than nine
    bytes.
   */
  lemma {:induction false} FixtureShortPayloadAboveKeyIsUnreadable(key: seq<byte>, payload: seq<byte>, a: Addr)
    requires |key| == 4 && |payload| < IpBlockSize
    requires a.V4? && AddrValue(a) > DecodeU32BE(key)
    ensures LayoutConsistent(FixtureFile(key, payload))
    ensures WindowReadable(FixtureFile(key, payload), a)
    ensures FinalPos(FixtureFile(key, payload), a) != Offset(FixtureFile(key, payload))
    ensures !RecordReadable(Buffer(FixtureFile(key, payload)), FinalPos(FixtureFile(key, payload), a))
    ensures !Readable(FixtureFile(key, payload), a)
  {
    var file := FixtureFile(key, payload);
    FixtureIsConsistent(key, payload);
    FixtureParts(key, payload);
    FixtureRecordFields(key, payload);
    FixtureSlotsAreZero(key, payload, a);
    assert StartOffset(file, a) == FirstIpNumberIndexSize;
    assert InitialHi(file, a) == 1;
    assert FirstAtLeast(Buffer(file), FirstIpNumberIndexSize, 1, AddrValue(a), 0) == 1;
    assert FinalPos(file, a) == FirstIpNumberIndexSize + IpBlockSize;
  }

  /** The nine bytes after the fixture's record run, read as a record: payload position 255, length 5. */
  const FarRecord: seq<byte> := [0, 0, 0, 0, 255, 0, 0, 0, 5]

  /**
    A consistently laid-out file can also be unreadable above its last key
    when the nine bytes after the record run decode as a whole record whose
    payload lies past the end of the buffer.
   */
  lemma {:induction false} FixtureFarPayloadAboveKeyIsUnreadable(key: seq<byte>, a: Addr)
    requires |key| == 4
    requires a.V4? && AddrValue(a) > DecodeU32BE(key)
    ensures LayoutConsistent(FixtureFile(key, FarRecord))
    ensures WindowReadable(FixtureFile(key, FarRecord), a)
    ensures FinalPos(FixtureFile(key, FarRecord), a) != Offset(FixtureFile(key, FarRecord))
    ensures RecordReadable(Buffer(FixtureFile(key, FarRecord)), FinalPos(FixtureFile(key, FarRecord), a))
    ensures RecordDataPos(Buffer(FixtureFile(key, FarRecord)), FinalPos(FixtureFile(key, FarRecord), a)) == 255
    ensures !PayloadReadable(FixtureFile(key, FarRecord), FinalPos(FixtureFile(key, FarRecord), a))
    ensures !Readable(FixtureFile(key, FarRecord), a)
  {
    var file := FixtureFile(key, FarRecord);
    var buf := FixtureBuffer(key, FarRecord);
    FixtureIsConsistent(key, FarRecord);
    FixtureParts(key, FarRecord);
    FixtureBufferBytes(key, FarRecord);
    FixtureRecordFields(key, FarRecord);
    FixtureSlotsAreZero(key, FarRecord, a);
    assert StartOffset(file, a) == FirstIpNumberIndexSize;
    assert InitialHi(file, a) == 1;
    assert FirstAtLeast(buf, FirstIpNumberIndexSize, 1, AddrValue(a), 0) == 1;
    var pos := FirstIpNumberIndexSize + IpBlockSize;
    assert FinalPos(file, a) == pos;
    assert buf[pos..] == FarRecord;
    assert buf[pos + 4..pos + 7] + [0] == FarRecord[4..7] + [0] == [255, 0, 0, 0];
    assert RecordDataPos(buf, pos) == 255;
    assert buf[pos + 8..pos + 9] == FarRecord[8..9] == [5];
    assert RecordDataLength(buf, pos) == 5;
    assert DataOffset(file, 255) == pos + 255;
  }
}

=== FILE: layout.dfy ===
/**
  The fixed layout of an IPIP.net `.datx` file and the pure decoders that read
  it: the big-endian header `offset`, the `buffer` that follows the header, the
  65,536-slot first-level index, and the 9-byte second-level records.

  All positions after the header are positions in the buffer (file position
  minus 4), as the lookup code computes them.
 */
module Layout {
  import opened Unpack

  const OffsetNumberSize: nat := 4
  const FirstIpNumberIndexSize: nat := 256 * 1024
  const IpBlockSize: nat := 9

  /** An already-resolved address: four IPv4 octets, or anything else. */
  datatype Addr = V4(o0: byte, o1: byte, o2: byte, o3: byte) | NotV4

  /**
    The address in network byte order, as `IPAddr#hton` gives it. Read as a
    number, its upper 16 bits select the first-level slot and its lower 16
    bits are octets 2 and 3.
   */
  function Nip(a: Addr): (s: seq<byte>)
    requires a.V4?
    ensures |s| == 4
    ensures DecodeU32BE(s) == SlotOffset(a) * 0x4000 + (a.o2 as int) * 0x100 + a.o3 as int
  {
    [a.o0, a.o1, a.o2, a.o3]
  }

  /** The address as an unsigned 32-bit number. */
  function AddrValue(a: Addr): nat
    requires a.V4?
  {
    DecodeU32BE(Nip(a))
  }

  /** The header `offset`: the first four bytes of the file, big-endian. */
  function Offset(file: seq<byte>): (r: nat)
    requires |file| >= OffsetNumberSize
    ensures r < TwoTo32
  {
    DecodeU32BE(file[..OffsetNumberSize])
  }

  /** The header value is exactly the big-endian number the first four bytes spell. */
  lemma OffsetIsHeaderBigEndian(file: seq<byte>)
    requires |file| >= OffsetNumberSize
    ensures EncodeU32BE(Offset(file)) == file[..OffsetNumberSize]
  {
    EncodeDecodeU32BE(file);
  }

  /** Everything after the header; buffer position `p` is file position `p + 4`. */
  function Buffer(file: seq<byte>): (buf: seq<byte>)
    requires |file| >= OffsetNumberSize
    ensures |buf| == |file| - OffsetNumberSize
  {
    file[OffsetNumberSize..]
  }

  /** The file is the header followed by the buffer. */
  lemma FileIsHeaderThenBuffer(file: seq<byte>)
    requires |file| >= OffsetNumberSize
    ensures file == file[..OffsetNumberSize] + Buffer(file)
  {
  }

  /** The file holds the header and the whole first-level index. */
  predicate HasFirstLevelIndex(file: seq<byte>)
  {
    |file| >= OffsetNumberSize + FirstIpNumberIndexSize
  }

  /**
    Buffer position of the first-level slot for the address's first two
    octets. The slot is four bytes wide and lies inside the first-level
    index, and it identifies the two octets uniquely.
   */
  function SlotOffset(a: Addr): (r: nat)
    requires a.V4?
    ensures r % 4 == 0
    ensures r + 4 <= FirstIpNumberIndexSize
    ensures r / 1024 == a.o0 && r / 4 % 256 == a.o1
  {
    ((a.o0 as int) * 256 + a.o1 as int) * 4
  }

  /** Two addresses share a first-level slot exactly when their first two octets agree. */
  lemma SlotOffsetIdentifiesBucket(a: Addr, b: Addr)
    requires a.V4? && b.V4?
    ensures SlotOffset(a) == SlotOffset(b) <==> a.o0 == b.o0 && a.o1 == b.o1
  {
  }

  /** The little-endian slot value: the index of the bucket's first record. */
  function SlotStart(file: seq<byte>, a: Addr): (r: nat)
    requires HasFirstLevelIndex(file) && a.V4?
    ensures r < TwoTo32
  {
    DecodeU32LE(Buffer(file)[SlotOffset(a)..SlotOffset(a) + 4])
  }

  /** The slot value is exactly the little-endian number the four slot bytes spell. */
  lemma SlotStartIsSlotLittleEndian(file: seq<byte>, a: Addr)
    requires HasFirstLevelIndex(file) && a.V4?
    ensures EncodeU32LE(SlotStart(file, a)) == Buffer(file)[SlotOffset(a)..SlotOffset(a) + 4]
  {
    EncodeDecodeU32LE(Buffer(file)[SlotOffset(a)..SlotOffset(a) + 4]);
  }

  /**
    `start_offset`: the buffer position of the bucket's first record. It lies
    past the first-level index, on a 9-byte record boundary counted from the
    index's end.
   */
  function StartOffset(file: seq<byte>, a: Addr): (r: nat)
    requires HasFirstLevelIndex(file) && a.V4?
    ensures FirstIpNumberIndexSize <= r
    ensures (r - FirstIpNumberIndexSize) % IpBlockSize == 0
  {
    SlotStart(file, a) * IpBlockSize + FirstIpNumberIndexSize
  }

  /**
    `end_offset`: the header offset less the first-level index and the header.
    The code uses it both as the end of the record run (a buffer position)
    and as the start of the payload region.
   */
  function EndOffset(file: seq<byte>): (r: int)
    requires |file| >= OffsetNumberSize
    ensures -(FirstIpNumberIndexSize + OffsetNumberSize) <= r < TwoTo32 - (FirstIpNumberIndexSize + OffsetNumberSize)
  {
    Offset(file) - FirstIpNumberIndexSize - OffsetNumberSize
  }

  /**
    The initial `hi` of the search: the number of whole records between the
    bucket's first record and `end_offset`; negative when the bucket starts
    past `end_offset`.
   */
  function InitialHi(file: seq<byte>, a: Addr): (r: int)
    requires HasFirstLevelIndex(file) && a.V4?
    ensures IpBlockSize * r <= EndOffset(file) - StartOffset(file, a) < IpBlockSize * (r + 1)
  {
    (EndOffset(file) - StartOffset(file, a)) / IpBlockSize
  }

  /** The 9-byte record at buffer position `pos` can be read. */
  predicate RecordReadable(buf: seq<byte>, pos: int)
  {
    0 <= pos && pos + IpBlockSize <= |buf|
  }

  /**
    The record's payload position: record bytes 4..6 read little-endian with
    a zero byte appended as the most significant byte, so a 24-bit value.
   */
  function RecordDataPos(buf: seq<byte>, pos: int): (r: nat)
    requires RecordReadable(buf, pos)
    ensures r < TwoTo24
  {
    DecodeU32LE(buf[pos + 4..pos + 7] + [0])
  }

  /** The payload position is exactly record bytes 4..6, least significant first, under a zero high byte. */
  lemma RecordDataPosIsBytes4To6(buf: seq<byte>, pos: int)
    requires RecordReadable(buf, pos)
    ensures EncodeU32LE(RecordDataPos(buf, pos)) == buf[pos + 4..pos + 7] + [0]
  {
    EncodeDecodeU32LE(buf[pos + 4..pos + 7] + [0]);
  }

  /** The record's payload length: the single byte at record position 8. */
  function RecordDataLength(buf: seq<byte>, pos: int): (r: nat)
    requires RecordReadable(buf, pos)
    ensures r < 256
    ensures [r as byte] == buf[pos + 8..pos + 9]
  {
    DecodeU8(buf[pos + 8..pos + 9])
  }

  /** Record byte 7 is never read: overwriting it leaves the decoded record unchanged. */
  lemma RecordIgnoresByte7(buf: seq<byte>, pos: int, x: byte)
    requires RecordReadable(buf, pos)
    ensures RecordDataPos(buf[pos + 7 := x], pos) == RecordDataPos(buf, pos)
    ensures RecordDataLength(buf[pos + 7 := x], pos) == RecordDataLength(buf, pos)
  {
    var buf' := buf[pos + 7 := x];
    assert buf'[pos + 4..pos + 7] == buf[pos + 4..pos + 7];
    assert buf'[pos + 8..pos + 9] == buf[pos + 8..pos + 9];
  }

  /**
    `data_offset`: the payload's buffer position. The payload region starts
    where the record run ends, at `end_offset`, and `data_pos` counts from there.
   */
  function DataOffset(file: seq<byte>, dataPos: nat): (r: int)
    requires |file| >= OffsetNumberSize
    ensures r == EndOffset(file) + dataPos
  {
    Offset(file) + dataPos - FirstIpNumberIndexSize - OffsetNumberSize
  }
}

=== FILE: options.dfy ===
/** The absent-or-present result of a lookup: Ruby's `nil` or a value. */
module Options {

  datatype Option<+T> = None | Some(value: T)
}

=== FILE: search.dfy ===
/**
  The lower-bound binary search over a run of 9-byte records whose first four
  bytes are the key, and the linear-scan definition it is measured against.

  Records are numbered from 0; record `i` starts at buffer position
  `so + 9 * i`, where `so` is the bucket's `start_offset`.
 */
module Search {
  import opened Unpack
  import opened Layout

  /** The keys of records `0 .. n-1` all lie inside the buffer (nothing to read when `n <= 0`). */
  predicate KeysReadable(buf: seq<byte>, so: nat, n: int)
  {
    n <= 0 || so + IpBlockSize * (n - 1) + 4 <= |buf|
  }

  /** The 4-byte key of record `i`, in network byte order. */
  function KeyAt(buf: seq<byte>, so: nat, i: nat): (k: seq<byte>)
    requires so + IpBlockSize * i + 4 <= |buf|
    ensures |k| == 4
  {
    buf[so + IpBlockSize * i..so + IpBlockSize * i + 4]
  }

  /** The key of record `i` as an unsigned 32-bit number. */
  function KeyValue(buf: seq<byte>, so: nat, i: nat): nat
    requires so + IpBlockSize * i + 4 <= |buf|
  {
    DecodeU32BE(KeyAt(buf, so, i))
  }

  /** Records `0 .. n-1` are readable and ascending by key. */
  predicate Sorted(buf: seq<byte>, so: nat, n: int)
  {
    && KeysReadable(buf, so, n)
    && forall i, j :: 0 <= i < j < n ==> KeyValue(buf, so, i) <= KeyValue(buf, so, j)
  }

  /**
    The first record at or after `i` whose key is at least `v`, or `n` when
    there is none (or `i` itself when the run is already exhausted).
   */
  function FirstAtLeast(buf: seq<byte>, so: nat, n: int, v: nat, i: nat): (r: nat)
    requires KeysReadable(buf, so, n)
    ensures i <= r
    ensures i <= n ==> r <= n
    ensures i >= n ==> r == i
    ensures forall j :: i <= j < r ==> KeyValue(buf, so, j) < v
    ensures r < n ==> v <= KeyValue(buf, so, r)
    decreases n - i
  {
    if i >= n then i
    else if KeyValue(buf, so, i) >= v then i
    else FirstAtLeast(buf, so, n, v, i + 1)
  }

  /**
    In a sorted run, every record from the lower bound onwards has a key of
    at least `v`, so the lower bound splits the run into keys below `v` and
    keys at or above it.
   */
  lemma FirstAtLeastSplitsSortedRun(buf: seq<byte>, so: nat, n: int, v: nat)
    requires Sorted(buf, so, n)
    ensures forall j :: 0 <= j < FirstAtLeast(buf, so, n, v, 0) ==> KeyValue(buf, so, j) < v
    ensures forall j :: FirstAtLeast(buf, so, n, v, 0) <= j < n ==> v <= KeyValue(buf, so, j)
  {
    var r := FirstAtLeast(buf, so, n, v, 0);
    forall j | r <= j < n
      ensures v <= KeyValue(buf, so, j)
    {
      assert KeyValue(buf, so, r) <= KeyValue(buf, so, j);
    }
  }

  /** Any index that splits the run as the lower bound does is the lower bound. */
  lemma FirstAtLeastIsUnique(buf: seq<byte>, so: nat, n: int, v: nat, k: nat)
    requires KeysReadable(buf, so, n)
    requires n <= 0 ==> k == 0
    requires n > 0 ==> k <= n
    requires forall j :: 0 <= j < k ==> KeyValue(buf, so, j) < v
    requires k < n ==> v <= KeyValue(buf, so, k)
    ensures FirstAtLeast(buf, so, n, v, 0) == k
  {
  }

  /**
    Right-inclusive ranges: when key `j` is at least `v` and the key before it
    (if any) is below `v`, the lower bound of a sorted run is `j`.
   */
  lemma {:induction false} FirstAtLeastAtRangeEnd(buf: seq<byte>, so: nat, n: int, v: nat, j: nat)
    requires Sorted(buf, so, n)
    requires j < n
    requires v <= KeyValue(buf, so, j)
    requires j == 0 || KeyValue(buf, so, j - 1) < v
    ensures FirstAtLeast(buf, so, n, v, 0) == j
  {
    forall i | 0 <= i < j
      ensures KeyValue(buf, so, i) < v
    {
      assert KeyValue(buf, so, i) <= KeyValue(buf, so, j - 1);
    }
    FirstAtLeastIsUnique(buf, so, n, v, j);
  }

  /**
    An equal key is found, not skipped: if record `j` has key `v`, the lower
    bound of a sorted run is no later than `j` and has key `v` too.
   */
  lemma {:induction false} FirstAtLeastFindsEqualKey(buf: seq<byte>, so: nat, n: int, v: nat, j: nat)
    requires Sorted(buf, so, n)
    requires j < n
    requires KeyValue(buf, so, j) == v
    ensures FirstAtLeast(buf, so, n, v, 0) <= j
    ensures KeyValue(buf, so, FirstAtLeast(buf, so, n, v, 0)) == v
  {
    var k := FirstAtLeast(buf, so, n, v, 0);
    assert KeyValue(buf, so, k) <= KeyValue(buf, so, j);
  }

  /**
    The search loop: `lo` rises past records whose key is byte-wise less than
    `nip`, `hi` falls onto records whose key is not. It always stops, with `lo`
    in `[0, max(0, hi0)]`; on a sorted run `lo` is the first record whose key
    is at least the address.
   */
  method LowerBound(buf: seq<byte>, so: nat, hi0: int, nip: seq<byte>) returns (lo: int)
    requires |nip| == 4
    requires KeysReadable(buf, so, hi0)
    ensures hi0 <= 0 ==> lo == 0
    ensures hi0 > 0 ==> 0 <= lo <= hi0
    ensures Sorted(buf, so, hi0) ==> lo == FirstAtLeast(buf, so, hi0, DecodeU32BE(nip), 0)
  {
    var v := DecodeU32BE(nip);
    var hi := hi0;
    lo := 0;
    while lo < hi
      invariant hi0 <= 0 ==> lo == 0 && hi == hi0
      invariant hi0 > 0 ==> 0 <= lo <= hi <= hi0
      invariant Sorted(buf, so, hi0) ==> forall j :: 0 <= j < lo ==> KeyValue(buf, so, j) < v
      invariant Sorted(buf, so, hi0) ==> forall j :: hi <= j < hi0 ==> v <= KeyValue(buf, so, j)
      decreases hi - lo
    {
      var mid := (lo + hi) / 2;
      var midOffset := so + mid * IpBlockSize;
      var midVal := buf[midOffset..midOffset + 4];
      assert midVal == KeyAt(buf, so, mid);
      LexLessIsNumericLess(midVal, nip);
      if LexLess(midVal, nip) {
        if Sorted(buf, so, hi0) {
          forall j | 0 <= j <= mid
            ensures KeyValue(buf, so, j) < v
          {
            assert KeyValue(buf, so, j) <= KeyValue(buf, so, mid);
          }
        }
        lo := mid + 1;
      } else {
        if Sorted(buf, so, hi0) {
          forall j | mid <= j < hi0
            ensures v <= KeyValue(buf, so, j)
          {
            assert KeyValue(buf, so, mid) <= KeyValue(buf, so, j);
          }
        }
        hi := mid;
      }
    }
    if Sorted(buf, so, hi0) {
      FirstAtLeastIsUnique(buf, so, hi0, v, lo);
    }
  }
}

=== FILE: unpack.dfy ===
/**
  Fixed-width integer decoders over binary strings, as Ruby's `String#unpack`
  performs them for the formats `C`, `N` and `V`, together with the encoders
  they invert and the byte-wise order Ruby uses to compare binary strings.
 */
module Unpack {

  /** One byte of a binary string. */
  type byte = b: int | 0 <= b < 256

  const TwoTo24: nat := 0x100_0000
  const TwoTo32: nat := 0x1_0000_0000

  /** Format `C`: the first byte as an unsigned 8-bit integer. */
  function DecodeU8(s: seq<byte>): (r: nat)
    requires |s| >= 1
    ensures r < 256
    ensures [r as byte] == s[..1]
  {
    s[0]
  }

  /** Format `N`: the first four bytes as an unsigned 32-bit big-endian integer. */
  function DecodeU32BE(s: seq<byte>): (r: nat)
    requires |s| >= 4
    ensures r < TwoTo32
  {
    (s[0] as int) * 0x100_0000 + (s[1] as int) * 0x1_0000 + (s[2] as int) * 0x100 + s[3] as int
  }

  /** Format `V`: the first four bytes as an unsigned 32-bit little-endian integer. */
  function DecodeU32LE(s: seq<byte>): (r: nat)
    requires |s| >= 4
    ensures r < TwoTo32
  {
    s[0] as int + (s[1] as int) * 0x100 + (s[2] as int) * 0x1_0000 + (s[3] as int) * 0x100_0000
  }

  /** The four bytes that format `N` decodes back to `n`. */
  function EncodeU32BE(n: nat): (s: seq<byte>)
    requires n < TwoTo32
    ensures |s| == 4
  {
    [n / 0x100_0000, n / 0x1_0000 % 0x100, n / 0x100 % 0x100, n % 0x100]
  }

  /** The four bytes that format `V` decodes back to `n`. */
  function EncodeU32LE(n: nat): (s: seq<byte>)
    requires n < TwoTo32
    ensures |s| == 4
  {
    [n % 0x100, n / 0x100 % 0x100, n / 0x1_0000 % 0x100, n / 0x100_0000]
  }

  /** A 32-bit value is the sum of its four base-256 digits. */
  lemma Digits(n: nat)
    requires n < TwoTo32
    ensures n / 0x100_0000 < 0x100
    ensures n == n % 0x100 + 0x100 * (n / 0x100 % 0x100)
                 + 0x1_0000 * (n / 0x1_0000 % 0x100) + 0x100_0000 * (n / 0x100_0000)
  {
    var q1 := n / 0x100;
    var q2 := q1 / 0x100;
    var q3 := q2 / 0x100;
    assert n == 0x100 * q1 + n % 0x100;
    assert q1 == 0x100 * q2 + q1 % 0x100;
    assert q2 == 0x100 * q3 + q2 % 0x100;
    assert n == 0x1_0000 * q2 + (0x100 * (q1 % 0x100) + n % 0x100);
    assert n / 0x1_0000 == q2;
    assert n == 0x100_0000 * q3 + (0x1_0000 * (q2 % 0x100) + 0x100 * (q1 % 0x100) + n % 0x100);
    assert n / 0x100_0000 == q3;
  }

  lemma DecodeEncodeU32BE(n: nat)
    requires n < TwoTo32
    ensures DecodeU32BE(EncodeU32BE(n)) == n
  {
    Digits(n);
  }

  lemma EncodeDecodeU32BE(s: seq<byte>)
    requires |s| >= 4
    ensures EncodeU32BE(DecodeU32BE(s)) == s[..4]
  {
    var n := DecodeU32BE(s);
    var q1 := (s[0] as int) * 0x1_0000 + (s[1] as int) * 0x100 + s[2] as int;
    var q2 := (s[0] as int) * 0x100 + s[1] as int;
    assert n == 0x100 * q1 + s[3] && n / 0x100 == q1 && n % 0x100 == s[3];
    assert q1 == 0x100 * q2 + s[2] && q1 % 0x100 == s[2];
    assert n == 0x1_0000 * q2 + ((s[2] as int) * 0x100 + s[3] as int) && n / 0x1_0000 == q2;
    assert q2 % 0x100 == s[1];
    assert n == 0x100_0000 * s[0] + ((s[1] as int) * 0x1_0000 + (s[2] as int) * 0x100 + s[3] as int);
    assert n / 0x100_0000 == s[0];
  }

  lemma DecodeEncodeU32LE(n: nat)
    requires n < TwoTo32
    ensures DecodeU32LE(EncodeU32LE(n)) == n
  {
    Digits(n);
  }

  lemma EncodeDecodeU32LE(s: seq<byte>)
    requires |s| >= 4
    ensures EncodeU32LE(DecodeU32LE(s)) == s[..4]
  {
    var n := DecodeU32LE(s);
    var q1 := s[1] as int + (s[2] as int) * 0x100 + (s[3] as int) * 0x1_0000;
    var q2 := s[2] as int + (s[3] as int) * 0x100;
    assert n == 0x100 * q1 + s[0] && n / 0x100 == q1 && n % 0x100 == s[0];
    assert q1 == 0x100 * q2 + s[1] && q1 % 0x100 == s[1];
    assert n == 0x1_0000 * q2 + (s[0] as int + (s[1] as int) * 0x100) && n / 0x1_0000 == q2;
    assert q2 % 0x100 == s[2];
    assert n == 0x100_0000 * s[3] + (s[0] as int + (s[1] as int) * 0x100 + (s[2] as int) * 0x1_0000);
    assert n / 0x100_0000 == s[3];
  }

  /** The two byte orders read the same four bytes in opposite directions. */
  lemma LittleEndianIsReversedBigEndian(s: seq<byte>)
    requires |s| >= 4
    ensures DecodeU32LE(s) == DecodeU32BE([s[3], s[2], s[1], s[0]])
  {
  }

  /**
    Ruby's `String#<` on binary strings: the first differing byte decides,
    and a proper prefix sorts before the longer string. No string is less
    than itself.
   */
  predicate LexLess(a: seq<byte>, b: seq<byte>)
    ensures a == b ==> !LexLess(a, b)
    ensures |a| < |b| && a == b[..|a|] ==> LexLess(a, b)
    decreases |a|
  {
    if |b| == 0 then false
    else if |a| == 0 then true
    else a[0] < b[0] || (a[0] == b[0] && LexLess(a[1..], b[1..]))
  }

  /**
    On four-byte strings, byte-wise comparison is unsigned comparison of the
    big-endian values, so a key equal to the address is never "less".
   */
  lemma {:induction false} LexLessIsNumericLess(a: seq<byte>, b: seq<byte>)
    requires |a| == 4 && |b| == 4
    ensures LexLess(a, b) <==> DecodeU32BE(a) < DecodeU32BE(b)
  {
    assert a[1..][1..] == a[2..] && b[1..][1..] == b[2..];
    assert a[2..][1..] == a[3..] && b[2..][1..] == b[3..];
    assert a[3..][1..] == [] && b[3..][1..] == [];
    assert LexLess(a[3..], b[3..]) <==> a[3] < b[3];
    assert LexLess(a[2..], b[2..]) <==> a[2] < b[2] || (a[2] == b[2] && a[3] < b[3]);
  }
}
